=== FILE: README.md ===
# homework_bot: the polling bot's decision layer in Dafny

The bot polls the homework-review service every ten minutes. It checks the
answer's shape and compares the tracked homework's `status` with the last one
it saw. When the status changed, it sends a Telegram message with the verdict
for the new status. Any other failure produces a single "something broke"
alert per run. This project models, in homework.py, the response validator
`check_response`, the status formatter `parse_status` with its verdict table
`HOMEWORK_STATUSES`, and one iteration of `main`'s loop as a pure step over
the loop variables `(current_status, current_timestamp, errors)`.

Files:

- `py_json.dfy` (module `PyJson`): decoded JSON values (`Null | Bool | Num | Str | List | Obj`),
  the exceptions that can escape an iteration, and Python's meaning of truthiness,
  `len`, `dict.get`, `v['key']`, `v[0]` and `str(v)` on them. Errors are values,
  not preconditions. The four exception classes of exceptions.py are constructors
  of `Error`.
- `homework.dfy` (module `Homework`): `CheckResponse`, `FormatStatus` / `ParseStatus`,
  the notification text `Notice`, and its inverse `VerdictOf`, which reads the
  status back from a message.
- `bot.dfy` (module `Bot`): the fetch outcome and `get_api_answer` (`GetApiAnswer`),
  the `try` block of one iteration (`TryBody`), the iteration with its
  `except Exception` handler (`Step`), the loop over a sequence of fetches (`Run`),
  and lemmas about them.

The HTTP exchange is an input. A `Fetch` is either a reply (status code plus
decoded body, or "not JSON") or a transport failure. Every message handed to
`send_message` is an output `Outgoing`. `Notification(status, message)` carries
the value `parse_status` returned. `Alert(error)` carries the exception the
failure message is built from.

Where the code differs from what the bot is meant to do, the model follows the code:

- A non-empty `homeworks` list is returned whole (homework.py:101), not its
  first entry. Line 165 then indexes that list with `'status'`, which raises a
  TypeError. So a well-formed answer never produces a status notification
  (`Bot.ListOfHomeworksNeverNotifies`); in fact no dict answer ever does
  (`Bot.DictAnswerNeverNotifiesAsWritten`). Two polls of one homework (reviewing
  at 1600, then approved at 2200) instead produce one failure alert, and the
  window stays at 1000
  (`Bot.ReviewingThenApprovedAsWritten`). See "## Findings".
- An answer that is not a dict is indexed with 0 (homework.py:86). It is not
  rejected. A list answer holding a dict homework is therefore announced, and
  only then fails on `current_date` (`Bot.ListAnswerNotifiesThenFails`).
- The decode failure re-raises `JSONDecodeError(msg)` with one argument. That
  class needs three arguments, so the raise itself is a TypeError. It still
  lands in the retry branch.
- A list or dict `status` is unhashable, so the membership test at
  homework.py:126 already raises a TypeError. Any other status outside the
  table is only logged there (homework.py:126-128), and the table lookup at
  line 130 then raises a KeyError.
- A dict homework without `status` fails in the loop with a KeyError at line 165.
  It never reaches `parse_status`'s EmptyValueError. That error is reached only
  when `status` is JSON `null` (`Bot.MissingStatusIsKeyError`).
- The message text is the code's Russian text, not a translation.

The loop is parameterised by a `Validator`. `AsWritten` is `check_response`.
`FirstHomework` is the corrected validator of "## Findings". The step and run
properties (alert at most once, never repeating a status, status always in the
table, window moves only to `current_date`) are proved for both.

## Model

| member | source | states |
|---|---|---|
| `PyJson.Len` | homework.py:95 | `len` is defined exactly on str, list and dict (otherwise a TypeError), and is 0 exactly when the value is falsy |
| `PyJson.Subscript` | homework.py:165 | `v['key']` succeeds exactly on a dict holding the key and yields its value; a dict without it raises KeyError, any other value TypeError |
| `PyJson.Get` | homework.py:88 | `d.get(key)` is the stored value when the key is present and None otherwise, so an absent key and a JSON null look alike |
| `PyJson.Index0` | homework.py:86 | `v[0]` succeeds exactly on a non-empty list or str, giving the first element or character; an empty one raises IndexError; None, a number or a bool raise TypeError; a dict raises KeyError(0) |
| `PyJson.DigitsRoundTrip` | homework.py:131 | the decimal digits `str()` writes for a natural number read back as that number |
| `Homework.CheckResponse` | homework.py:81-104 | non-dict answers are indexed with 0: a non-empty list gives its first element, a non-empty str its first character, an empty one IndexError, None, a number or a bool TypeError; a dict with `homeworks` absent or null is ExpectedKeysError (iff); empty `homeworks` gives `{}` before any type test; a non-empty str or dict is TheAnswerListError (iff); a number or bool fails `len` with TypeError; a non-empty list is returned unchanged, whole and in order; every success on a dict is `{}` or that list |
| `Homework.CheckResponseFirst` | homework.py:95-101 | the corrected validator: for a non-empty `homeworks` list it yields the first homework, and on every other answer it agrees with `check_response` |
| `Homework.Notice` | homework.py:131 | the text is the fixed opening, then the homework name as `str()` renders it followed by a closing quote, a full stop and a line break, and then the verdict, which ends it |
| `Homework.FormatStatus` | homework.py:113-131 | missing or null `status` is EmptyValueError (iff); a text is produced exactly when `status` is one of approved, reviewing, rejected, and it is the notice for `homework_name` with that status's verdict; a list or dict status is TypeError; any other status is KeyError on that status |
| `Homework.ParseStatus` | homework.py:107-131 | for a dict with a table status the result is exactly the notice for its `homework_name` and that status's verdict, and a success always is such a str, whose verdict reads back as the `status`; every failure of the dict branch is the error `FormatStatus` names (EmptyValueError exactly for missing or null `status`); a non-dict is indexed with 0, succeeding only as a non-empty list or str |
| `Homework.NoticeNamesStatus` | homework.py:130-131 | whatever the homework name, the status read back from a notification text is the status whose verdict it carries |
| `Homework.NoticeDeterminesStatus` | homework.py:30-34 | the three verdicts are distinguishable: equal notification texts report equal statuses |
| `Bot.GetApiAnswer` | homework.py:58-78 | a transport failure exits (SystemExit, not caught by the loop); a status other than 200 raises TheAnswerStatusCodeNot200Error with that code whatever the body; only a 200 with a decoded body is an answer, and it is that body; an undecodable 200 body raises TypeError, because building the `JSONDecodeError` with one argument fails |
| `Bot.FromDate` | homework.py:60-61 | a truthy timestamp is sent as `from_date` unchanged, a falsy one is replaced by the clock reading, so the parameter is never falsy while the clock reads non-zero |
| `Bot.Start` | homework.py:158-160 | the loop starts tracking `reviewing`, a status the table knows, with the window at the clock reading and the alert still allowed |
| `Bot.AdvanceWindow` | homework.py:169-172 | the iteration completes exactly when the answer is a dict with `current_date`, and the window becomes that value; status and sent messages are kept either way; when the lookup fails the exception is KeyError('current_date') for a dict answer and TypeError for any other |
| `Bot.TryBody` | homework.py:162-173 | a transport failure is the only exit; a completed iteration came from a 200 dict answer and moves the window to its `current_date`; at most one message is sent; without one the status is unchanged; with one it is a notification for a new, table-known status, whose text reads back as that status; a quiet 200 dict answer with `current_date` completes at that date without sending anything; an exception from the request or from `check_response` ends the block with that very exception, nothing sent and the status kept; a failing `homework['status']` lookup or a failing `parse_status` on a changed status ends the block with exactly that exception; any other exception is the failed `current_date` lookup's |
| `Bot.Step` | homework.py:161-191 | the alert flag is only ever cleared, at most one alert is sent and only while the flag is set, and sending it clears the flag; the status changes only together with a notification of the new status; table-known statuses stay table-known; the window moves only to the answer's `current_date` and never on the exception path, which always clears the flag and alerts exactly when the flag was set; a completed try block is kept as it is: its status, its window and its messages; after an exception the chat gets what the block sent and then, if the flag was set, an alert naming exactly the exception the block raised |
| `Bot.Run` | homework.py:185-191 | over any sequence of fetches the chat receives at most one failure alert, none once the flag is cleared, and the flag is never set again |
| `Bot.RunNeverRepeats` | homework.py:165-168 | across a run every notification announces a status different from the previously announced (or initial) one, and the tracked status is always the last one announced |
| `Bot.RunHaltsOnExit` | homework.py:72-74 | a run stops exactly when one of its fetches is a transport failure (the SystemExit that `except Exception` does not catch); no answer, however malformed, ends the loop |
| `Bot.RunExitSendsNothing` | homework.py:185-190 | a transport failure after any run that had not stopped ends it with the state and messages it had: the `SystemExit` passes the `except Exception` handler and no alert goes out |
| `Bot.RunKeepsStatusValid` | homework.py:159-168 | starting from `reviewing`, the tracked status is always one of the table's three codes |
| `Bot.TryBodyNotifiesWhen` | homework.py:164-168 | the try block sends a notification exactly when the answer validates to a truthy dict homework whose `status` differs from the tracked one and formats, and the tracked status becomes that `status`; the one message sent is then the notification of that `status` with exactly the `parse_status` text for its `homework_name` and verdict |
| `Bot.StepNotifiesWhen` | homework.py:164-191 | the same condition decides whether a whole iteration, handler included, announces a change, and the new tracked status is the homework's `status` |
| `Bot.ListOfHomeworksNeverNotifies` | homework.py:164-165 | with the validator as written, a 200 dict answer whose `homeworks` is a non-empty list raises TypeError, sends no notification and leaves status and window unchanged |
| `Bot.DictAnswerNeverNotifiesAsWritten` | homework.py:95-101 | with the validator as written, no 200 dict answer of any shape meets the change condition, so no iteration on a dict answer sends a notification |
| `Bot.QuietAnswerCompletes` | homework.py:165-172 | an answer validating to a falsy homework, or to one whose `status` is the tracked one, completes when it carries `current_date`: nothing is sent, status and flag are kept, and the window moves to that date |
| `Bot.EmptyHomeworksCompletes` | homework.py:95-96 | a dict answer with an empty `homeworks` and a `current_date` neither notifies nor raises, and moves the window to that date |
| `Bot.NextQueryIsCurrentDate` | homework.py:60-61 | after an iteration completed at a truthy `current_date`, the next `from_date` is that date whatever the clock says |
| `Bot.FirstHomeworkNotifies` | homework.py:164-172 | with the corrected validator, the first homework of such an answer is announced when its status changed and formats; the status is tracked and the window moves to `current_date` |
| `Bot.MissingStatusIsKeyError` | homework.py:165 | a truthy dict homework without `status` fails the comparison with KeyError('status'), although `parse_status` alone would raise EmptyValueError |
| `Bot.UnknownStatusAlertsKeyError` | homework.py:126-130 | a changed status outside the table keeps status and window, clears the flag, and the only message is an alert carrying KeyError on that status, sent only while the flag was set |
| `Bot.ListAnswerNotifiesThenFails` | homework.py:83-86 | a non-empty list answer of any length whose first element is a changed, formattable dict homework is announced and tracked, then the `current_date` lookup raises TypeError: the window stays and the alert follows if still allowed |
| `Bot.ReviewingThenApprovedAsWritten` | homework.py:158-191 | the two-poll example (reviewing at 1600, then approved at 2200, from 1000): as written the first poll alerts TypeError and keeps the window at 1000, and the second sends nothing |
| `Bot.ReviewingThenApprovedIntended` | homework.py:158-191 | with the corrected validator the first poll sends nothing and moves to 1600; the second sends exactly the approval text for `proj1`, tracks `approved` and moves to 2200 |

## Findings

| source | as written | input that shows it | evidently intended | confidence | as-written member | corrected member |
|---|---|---|---|---|---|---|
| homework.py:101 | `check_response` returns the whole non-empty `homeworks` list; line 165 then evaluates `homework['status']` on a list, which raises TypeError | status code 200 with body `{"homeworks": [{"homework_name": "proj1", "status": "approved"}], "current_date": 2200}` while tracking `reviewing` | hand back the first homework so that its status is compared and announced | not executed | `Bot.DictAnswerNeverNotifiesAsWritten` | `Bot.FirstHomeworkNotifies` |

## Left out

- The HTTP request of `get_api_answer` (homework.py:63): its outcome is the input `Fetch`.
  Newer `requests` releases make the decode error a `RequestException` too, which would
  turn it into a `SystemExit`. The model treats it as retryable.
- `send_message` (homework.py:49-55): a Telegram error is logged and swallowed, and delivery
  changes no loop variable. An `Outgoing` records the attempt, not the delivery.
- Every `logger` call and the logging setup: logging has no effect on results.
- `load_dotenv`, `os.getenv`, the header construction and `check_tokens` (homework.py:17-27, 134-150):
  this is environment plumbing.
- `time.time()` is a parameter (`Start`, `FromDate`). `FromDate` is not threaded through `Run`:
  the fetch outcome does not depend on the query in this model, and `Bot.NextQueryIsCurrentDate`
  relates the two. Both `time.sleep` calls, including the
  double sleep on the change path, are left out because only wall-clock timing depends on them.
- The `KeyboardInterrupt` prompt (homework.py:175-183): it is interactive console input.
- The `except AttributeError` handlers (homework.py:102-104, 118-120) cannot fire, since `.get`
  is only ever called on a dict. They are not modelled.
- An alert carries the exception, not its text `Сбой в работе программы: {error}`, because
  Python's wording of built-in exceptions is not modelled.
- JSON numbers are integers. Floats are not modelled.
- `str()` of a list- or dict-valued `homework_name` is rendered as `[...]` or `{...}`,
  not as Python's `repr`.
- The tracked status is compared with structural equality. This agrees with Python's `!=`
  because the tracked status is always a str (`Bot.RunKeepsStatusValid`).

=== FILE: bot.dfy ===
/**
 The polling loop of `main` as a state machine. One iteration fetches the
 review service's answer, validates it, notifies the chat when the tracked
 status changed and moves the poll window forward; any `Exception` is turned
 into a single failure alert per run. The HTTP exchange and the chat are
 outside the model: the exchange is an input (`Fetch`) and every message the
 iteration hands to `send_message` is an output (`Outgoing`).
 */
module Bot {
  import opened PyJson
  import opened Homework

  /** The decoded body of a reply, or the fact that it was not JSON. */
  datatype Body = Decoded(value: Json) | Undecodable

  /** What the GET request of `get_api_answer` came back with. */
  datatype Fetch = Reply(code: int, body: Body) | TransportFailure

  /** How `get_api_answer` ends: with an answer, an `Exception`, or a `SystemExit`. */
  datatype ApiAnswer = Answer(response: Json) | Raised(error: Error) | Exit

  /**
   `get_api_answer` once the request is made. A transport failure becomes a
   `SystemExit`; a status other than 200 raises before the body is looked at.
   */
  function GetApiAnswer(f: Fetch): (r: ApiAnswer)
    ensures r.Exit? <==> f.TransportFailure?
    ensures r.Answer? <==> f.Reply? && f.code == 200 && f.body.Decoded?
    ensures r.Answer? ==> r.response == f.body.value
    ensures f.Reply? && f.code != 200 ==> r == Raised(TheAnswerStatusCodeNot200Error(f.code))
    ensures f.Reply? && f.code == 200 && f.body.Undecodable? ==> r == Raised(TypeError)
  {
    match f
    case TransportFailure => Exit
    case Reply(code, body) =>
      if code != 200 then Raised(TheAnswerStatusCodeNot200Error(code))
      else
        match body
        case Decoded(v) => Answer(v)
        // `JSONDecodeError(msg)` lacks its `doc` and `pos` arguments, so
        // building it raises a TypeError in place of the decode error
        case Undecodable => Raised(TypeError)
  }

  /** The `from_date` query parameter: the poll timestamp, or the clock when it is falsy. */
  function FromDate(timestamp: Json, now: int): (r: Json)
    ensures Truthy(timestamp) ==> r == timestamp
    ensures !Truthy(timestamp) ==> r == Num(now)
    ensures now != 0 ==> Truthy(r)
  {
    if Truthy(timestamp) then timestamp else Num(now)
  }

  /** The loop variables of `main`. */
  datatype PollState = PollState(status: Json, timestamp: Json, errors: bool)

  /** The state before the first iteration, `now` being `int(time.time())`. */
  function Start(now: int): (s: PollState)
    ensures s.status == Str("reviewing") && ValidStatus(s.status)
    ensures s.timestamp == Num(now) && s.errors
  {
    PollState(Str("reviewing"), Num(now), true)
  }

  /** A status the verdict table knows. */
  predicate ValidStatus(status: Json) {
    status.Str? && status.s in Verdicts
  }

  /** A message handed to `send_message`: a status change, or the failure alert. */
  datatype Outgoing = Notification(status: Json, message: Json) | Alert(error: Error)

  /**
   Which response validator the loop calls: `check_response` as written, or
   the corrected one that hands back the first homework of the list.
   */
  datatype Validator = AsWritten | FirstHomework

  function Validate(v: Validator, response: Json): Result<Json> {
    match v
    case AsWritten => CheckResponse(response)
    case FirstHomework => CheckResponseFirst(response)
  }

  /** How the `try` block of one iteration ends, with what it already did. */
  datatype Attempt =
    | Completed(status: Json, timestamp: Json, sent: seq<Outgoing>)
    | Threw(status: Json, sent: seq<Outgoing>, error: Error)
    | Exited

  /**
   The last step of the `try` block: `current_timestamp = response['current_date']`.
   On the change path the same lookup runs twice; the second cannot fail once
   the first succeeded, so it is modelled once.
   */
  function AdvanceWindow(status: Json, response: Json, sent: seq<Outgoing>): (r: Attempt)
    ensures r.Completed? <==> response.Obj? && "current_date" in response.fields
    ensures r.Completed? ==> r.timestamp == response.fields["current_date"]
    ensures !r.Exited? && r.status == status && r.sent == sent
    // a dict without the key raises KeyError('current_date'); anything else cannot be subscripted by a str
    ensures r.Threw? ==> r.error == (if response.Obj? then KeyError(Str("current_date")) else TypeError)
  {
    match Subscript(response, "current_date")
    case Ok(date) => Completed(status, date, sent)
    case Err(e) => Threw(status, sent, e)
  }

  /**
   An answer that changes nothing: it validates to a falsy homework (such as
   the `{}` for an empty `homeworks`), or to one whose `status` is the tracked one.
   */
  predicate Quiet(v: Validator, s: PollState, response: Json) {
    && Validate(v, response).Ok?
    && var homework := Validate(v, response).value;
    && (!Truthy(homework) || Subscript(homework, "status") == Ok(s.status))
  }

  /** The `try` block of `main`'s loop. */
  function TryBody(v: Validator, s: PollState, f: Fetch): (r: Attempt)
    ensures r.Exited? <==> f.TransportFailure?
    ensures r.Completed? ==>
              && f.Reply? && f.code == 200 && f.body.Decoded? && f.body.value.Obj?
              && "current_date" in f.body.value.fields
              && r.timestamp == f.body.value.fields["current_date"]
    ensures !r.Exited? ==> |r.sent| <= 1
    ensures !r.Exited? && r.sent == [] ==> r.status == s.status
    ensures !r.Exited? && r.sent != [] ==>
              && r.sent[0].Notification?
              && r.sent[0].status == r.status && r.status != s.status
              && ValidStatus(r.status)
              && r.sent[0].message.Str?
              && VerdictOf(r.sent[0].message.s) == Some(r.status.s)
    // a quiet answer carrying `current_date` completes, silently, at that date
    ensures f.Reply? && f.code == 200 && f.body.Decoded? && Quiet(v, s, f.body.value)
            && f.body.value.Obj? && "current_date" in f.body.value.fields ==>
              r == Completed(s.status, f.body.value.fields["current_date"], [])
    // an exception from the request or from the validation ends the body at once
    ensures GetApiAnswer(f).Raised? ==> r == Threw(s.status, [], GetApiAnswer(f).error)
    ensures GetApiAnswer(f).Answer? && Validate(v, GetApiAnswer(f).response).Err? ==>
              r == Threw(s.status, [], Validate(v, GetApiAnswer(f).response).error)
    // so does an exception from `homework['status']` or from `parse_status`
    ensures GetApiAnswer(f).Answer? && Validate(v, GetApiAnswer(f).response).Ok? ==>
              var h := Validate(v, GetApiAnswer(f).response).value;
              Truthy(h) && Subscript(h, "status").Err? ==>
                r == Threw(s.status, [], Subscript(h, "status").error)
    ensures GetApiAnswer(f).Answer? && Validate(v, GetApiAnswer(f).response).Ok? ==>
              var h := Validate(v, GetApiAnswer(f).response).value;
              && Truthy(h) && Subscript(h, "status").Ok? && Subscript(h, "status").value != s.status
              && ParseStatus(h).Err? ==>
                r == Threw(s.status, [], ParseStatus(h).error)
    // any other exception is the `current_date` lookup's, after whatever was sent
    ensures r.Threw? && GetApiAnswer(f).Answer? && Validate(v, GetApiAnswer(f).response).Ok? ==>
              var h := Validate(v, GetApiAnswer(f).response).value;
              (!Truthy(h) || Subscript(h, "status") == Ok(s.status) || r.sent != []) ==>
                Subscript(GetApiAnswer(f).response, "current_date") == Err(r.error)
  {
    match GetApiAnswer(f)
    case Exit => Exited
    case Raised(e) => Threw(s.status, [], e)
    case Answer(response) =>
      match Validate(v, response)
      case Err(e) => Threw(s.status, [], e)
      case Ok(homework) =>
        if !Truthy(homework) then AdvanceWindow(s.status, response, [])
        else
          match Subscript(homework, "status")
          case Err(e) => Threw(s.status, [], e)
          case Ok(status) =>
            if status == s.status then AdvanceWindow(s.status, response, [])
            else
              match ParseStatus(homework)
              case Err(e) => Threw(s.status, [], e)
              case Ok(message) => AdvanceWindow(status, response, [Notification(status, message)])
  }

  /** One iteration: the `try` block and its `except Exception` handler. */
  datatype Cycle = Running(state: PollState, sent: seq<Outgoing>) | Halted

  function AlertCount(sent: seq<Outgoing>): nat {
    if |sent| == 0 then 0
    else (if sent[0].Alert? then 1 else 0) + AlertCount(sent[1..])
  }

  /** The statuses announced by the notifications among `sent`, in order. */
  function NotifiedStatuses(sent: seq<Outgoing>): seq<Json> {
    if |sent| == 0 then []
    else (if sent[0].Notification? then [sent[0].status] else []) + NotifiedStatuses(sent[1..])
  }

  function Step(v: Validator, s: PollState, f: Fetch): (r: Cycle)
    ensures r.Halted? <==> f.TransportFailure?
    // the alert flag is only ever cleared, and an alert clears it
    ensures r.Running? ==> (r.state.errors ==> s.errors)
    ensures r.Running? ==> AlertCount(r.sent) <= (if s.errors then 1 else 0)
    ensures r.Running? && AlertCount(r.sent) > 0 ==> !r.state.errors
    // the status moves only with a notification, and only to a new value
    ensures r.Running? ==>
              || (NotifiedStatuses(r.sent) == [] && r.state.status == s.status)
              || (NotifiedStatuses(r.sent) == [r.state.status] && r.state.status != s.status)
    ensures r.Running? && ValidStatus(s.status) ==> ValidStatus(r.state.status)
    // the window moves only to the answer's `current_date`, and never on the failure path
    ensures r.Running? && r.state.timestamp != s.timestamp ==>
              && f.Reply? && f.body.Decoded? && f.body.value.Obj?
              && "current_date" in f.body.value.fields
              && r.state.timestamp == f.body.value.fields["current_date"]
    ensures r.Running? && TryBody(v, s, f).Threw? ==>
              && r.state.timestamp == s.timestamp
              && !r.state.errors
              && (s.errors <==> AlertCount(r.sent) == 1)
    ensures r.Running? && TryBody(v, s, f).Completed? ==> r.state.errors == s.errors && AlertCount(r.sent) == 0
    ensures r.Running? && TryBody(v, s, f).Completed? ==>
              && r.state.status == TryBody(v, s, f).status
              && r.state.timestamp == TryBody(v, s, f).timestamp
              && r.sent == TryBody(v, s, f).sent
    // the handler reports the very exception the body raised, after what the body sent
    ensures r.Running? && TryBody(v, s, f).Threw? ==>
              r.sent == TryBody(v, s, f).sent + (if s.errors then [Alert(TryBody(v, s, f).error)] else [])
  {
    match TryBody(v, s, f)
    case Exited => Halted
    case Completed(status, timestamp, sent) =>
      AlertCount1(sent);
      Running(PollState(status, timestamp, s.errors), sent)
    case Threw(status, sent, e) =>
      var alert := if s.errors then [Alert(e)] else [];
      AlertCount1(sent);
      AlertCount1(alert);
      AlertCountAppend(sent, alert);
      NotifiedStatuses1(sent);
      NotifiedStatuses1(alert);
      NotifiedStatusesAppend(sent, alert);
      Running(PollState(status, s.timestamp, false), sent + alert)
  }

  /** What a run of the loop over a sequence of fetches sends, and where it stops. */
  datatype Trace = Trace(state: PollState, sent: seq<Outgoing>, halted: bool)

  /**
   The loop over successive fetches until a `SystemExit`. Whatever the
   fetches, the chat gets at most one failure alert, and none at all once the
   flag has been cleared.
   */
  function Run(v: Validator, s: PollState, fetches: seq<Fetch>): (r: Trace)
    ensures AlertCount(r.sent) <= (if s.errors then 1 else 0)
    ensures r.state.errors ==> s.errors
    decreases |fetches|
  {
    if |fetches| == 0 then Trace(s, [], false)
    else
      match Step(v, s, fetches[0])
      case Halted => Trace(s, [], true)
      case Running(next, sent) =>
        var rest := Run(v, next, fetches[1..]);
        AlertCountAppend(sent, rest.sent);
        Trace(rest.state, sent + rest.sent, rest.halted)
  }

  lemma AlertCount1(sent: seq<Outgoing>)
    requires |sent| <= 1
    ensures AlertCount(sent) == (if |sent| == 1 && sent[0].Alert? then 1 else 0)
  {
    if |sent| == 1 {
      assert sent[1..] == [];
    }
  }

  lemma NotifiedStatuses1(sent: seq<Outgoing>)
    requires |sent| <= 1
    ensures NotifiedStatuses(sent) == (if |sent| == 1 && sent[0].Notification? then [sent[0].status] else [])
  {
    if |sent| == 1 {
      assert sent[1..] == [];
    }
  }

  lemma {:induction false} AlertCountAppend(a: seq<Outgoing>, b: seq<Outgoing>)
    ensures AlertCount(a + b) == AlertCount(a) + AlertCount(b)
  {
    if |a| == 0 {
      assert a + b == b;
    } else {
      assert (a + b)[1..] == a[1..] + b;
      AlertCountAppend(a[1..], b);
    }
  }

  lemma {:induction false} NotifiedStatusesAppend(a: seq<Outgoing>, b: seq<Outgoing>)
    ensures NotifiedStatuses(a + b) == NotifiedStatuses(a) + NotifiedStatuses(b)
  {
    if |a| == 0 {
      assert a + b == b;
    } else {
      assert (a + b)[0] == a[0];
      assert (a + b)[1..] == a[1..] + b;
      NotifiedStatusesAppend(a[1..], b);
      var head := if a[0].Notification? then [a[0].status] else [];
      calc {
        NotifiedStatuses(a + b);
        head + NotifiedStatuses(a[1..] + b);
        head + (NotifiedStatuses(a[1..]) + NotifiedStatuses(b));
        (head + NotifiedStatuses(a[1..])) + NotifiedStatuses(b);
      }
    }
  }

  /** Each status in `xs` differs from the one before it, the first from `prev`. */
  predicate Changes(prev: Json, xs: seq<Json>)
    decreases |xs|
  {
    |xs| == 0 || (xs[0] != prev && Changes(xs[0], xs[1..]))
  }

  /** The last of `xs`, or `prev` when there is none. */
  function LastOf(prev: Json, xs: seq<Json>): Json {
    if |xs| == 0 then prev else xs[|xs| - 1]
  }

  /**
   A run never announces the same status twice in a row: every notification
   reports a status different from the one announced (or started with) before
   it, and the tracked status is always the last one announced.
   */
  lemma {:induction false} RunNeverRepeats(v: Validator, s: PollState, fetches: seq<Fetch>)
    ensures Changes(s.status, NotifiedStatuses(Run(v, s, fetches).sent))
    ensures Run(v, s, fetches).state.status == LastOf(s.status, NotifiedStatuses(Run(v, s, fetches).sent))
    decreases |fetches|
  {
    if |fetches| > 0 {
      match Step(v, s, fetches[0])
      case Halted =>
      case Running(next, sent) =>
        var rest := Run(v, next, fetches[1..]);
        RunNeverRepeats(v, next, fetches[1..]);
        NotifiedStatusesAppend(sent, rest.sent);
        var later := NotifiedStatuses(rest.sent);
        if NotifiedStatuses(sent) != [] {
          assert NotifiedStatuses(sent) + later == [next.status] + later;
          assert ([next.status] + later)[1..] == later;
          if |later| > 0 {
            assert LastOf(s.status, [next.status] + later) == later[|later| - 1];
          }
        } else {
          assert NotifiedStatuses(sent) + later == later;
        }
    }
  }

  /** Every status a run tracks is one of the table's codes. */
  lemma {:induction false} RunKeepsStatusValid(v: Validator, s: PollState, fetches: seq<Fetch>)
    requires ValidStatus(s.status)
    ensures ValidStatus(Run(v, s, fetches).state.status)
    decreases |fetches|
  {
    if |fetches| > 0 {
      match Step(v, s, fetches[0])
      case Halted =>
      case Running(next, sent) =>
        RunKeepsStatusValid(v, next, fetches[1..]);
    }
  }

  predicate SomeTransportFailure(fetches: seq<Fetch>) {
    exists i :: 0 <= i < |fetches| && fetches[i].TransportFailure?
  }

  /** The loop stops exactly when some request could not be made; no other outcome ends it. */
  lemma {:induction false} RunHaltsOnExit(v: Validator, s: PollState, fetches: seq<Fetch>)
    ensures Run(v, s, fetches).halted ==> SomeTransportFailure(fetches)
    ensures SomeTransportFailure(fetches) ==> Run(v, s, fetches).halted
    decreases |fetches|
  {
    if |fetches| > 0 {
      match Step(v, s, fetches[0])
      case Halted =>
        assert fetches[0].TransportFailure?;
      case Running(next, sent) =>
        var rest := fetches[1..];
        RunHaltsOnExit(v, next, rest);
        if SomeTransportFailure(fetches) {
          var i :| 0 <= i < |fetches| && fetches[i].TransportFailure?;
          assert i > 0 && rest[i - 1] == fetches[i];
        }
        if SomeTransportFailure(rest) {
          var j :| 0 <= j < |rest| && rest[j].TransportFailure?;
          assert fetches[j + 1] == rest[j];
        }
    }
  }

  /**
   The `SystemExit` of a failed request passes the `except Exception` handler:
   the run stops where it was, and no alert or other message goes out for it.
   */
  lemma {:induction false} RunExitSendsNothing(v: Validator, s: PollState, fetches: seq<Fetch>)
    requires !Run(v, s, fetches).halted
    ensures Run(v, s, fetches + [TransportFailure]) ==
            Trace(Run(v, s, fetches).state, Run(v, s, fetches).sent, true)
    decreases |fetches|
  {
    var all := fetches + [TransportFailure];
    if |fetches| > 0 {
      assert all[0] == fetches[0];
      match Step(v, s, fetches[0])
      case Halted =>
      case Running(next, sent) =>
        assert all[1..] == fetches[1..] + [TransportFailure];
        RunExitSendsNothing(v, next, fetches[1..]);
    } else {
      assert all == [TransportFailure];
    }
  }

  /**
   The condition under which an iteration announces a status change: a 200
   reply whose answer validates to a truthy dict homework with a `status`
   other than the tracked one, and that status formats.
   */
  predicate ChangeSeen(v: Validator, s: PollState, f: Fetch) {
    && f.Reply? && f.code == 200 && f.body.Decoded?
    && Validate(v, f.body.value).Ok?
    && var homework := Validate(v, f.body.value).value;
    && Truthy(homework) && homework.Obj? && "status" in homework.fields
    && homework.fields["status"] != s.status
    && FormatStatus(homework.fields).Ok?
  }

  lemma TryBodyNotifiesWhen(v: Validator, s: PollState, f: Fetch)
    requires f.Reply?
    ensures TryBody(v, s, f).sent != [] <==> ChangeSeen(v, s, f)
    ensures TryBody(v, s, f).sent != [] ==>
              TryBody(v, s, f).status == Validate(v, f.body.value).value.fields["status"]
    // the notification carries the status and the text `parse_status` builds for it
    ensures ChangeSeen(v, s, f) ==>
              var h := Validate(v, f.body.value).value;
              var st := h.fields["status"];
              && st.Str? && st.s in Verdicts
              && TryBody(v, s, f).sent ==
                 [Notification(st, Str(Notice(Get(h.fields, "homework_name"), Verdicts[st.s])))]
  {
    if f.code == 200 && f.body.Decoded? {
      var response := f.body.value;
      match Validate(v, response)
      case Err(_) =>
      case Ok(homework) =>
        if Truthy(homework) && homework.Obj? && "status" in homework.fields
           && homework.fields["status"] != s.status {
          assert ParseStatus(homework).Ok? <==> FormatStatus(homework.fields).Ok?;
        }
    }
  }

  /**
   An iteration sends a status notification exactly when `ChangeSeen` holds,
   and the tracked status then becomes the homework's `status`.
   */
  lemma StepNotifiesWhen(v: Validator, s: PollState, f: Fetch)
    requires f.Reply?
    ensures NotifiedStatuses(Step(v, s, f).sent) != [] <==> ChangeSeen(v, s, f)
    ensures ChangeSeen(v, s, f) ==>
              Step(v, s, f).state.status == Validate(v, f.body.value).value.fields["status"]
  {
    TryBodyNotifiesWhen(v, s, f);
    match TryBody(v, s, f)
    case Completed(_, _, sent) =>
      NotifiedStatuses1(sent);
    case Threw(_, sent, e) =>
      var alert := if s.errors then [Alert(e)] else [];
      NotifiedStatuses1(sent);
      NotifiedStatuses1(alert);
      NotifiedStatusesAppend(sent, alert);
  }

  /**
   With `check_response` as written, a well-formed answer whose `homeworks` is
   a non-empty list never produces a notification: the whole list comes back,
   and indexing it with `'status'` raises a TypeError.
   */
  lemma ListOfHomeworksNeverNotifies(s: PollState, response: Json)
    requires response.Obj? && "homeworks" in response.fields
    requires response.fields["homeworks"].List? && Truthy(response.fields["homeworks"])
    ensures TryBody(AsWritten, s, Reply(200, Decoded(response))) == Threw(s.status, [], TypeError)
    ensures Step(AsWritten, s, Reply(200, Decoded(response))).state == PollState(s.status, s.timestamp, false)
    ensures !ChangeSeen(AsWritten, s, Reply(200, Decoded(response)))
  {
  }

  /**
   With the corrected validator the first homework of such an answer is the
   one compared and announced.
   */
  lemma FirstHomeworkNotifies(s: PollState, response: Json)
    requires response.Obj? && "homeworks" in response.fields && "current_date" in response.fields
    requires response.fields["homeworks"].List? && Truthy(response.fields["homeworks"])
    requires var homework := response.fields["homeworks"].items[0];
             && homework.Obj? && "status" in homework.fields
             && homework.fields["status"] != s.status
             && FormatStatus(homework.fields).Ok?
    ensures var homework := response.fields["homeworks"].items[0];
            Step(FirstHomework, s, Reply(200, Decoded(response))) ==
            Running(PollState(homework.fields["status"], response.fields["current_date"], s.errors),
                    [Notification(homework.fields["status"], Str(FormatStatus(homework.fields).value))])
  {
  }

  /**
   In the loop a dict homework without a `status` key fails on the comparison
   with a KeyError before `parse_status` could raise its EmptyValueError.
   */
  lemma MissingStatusIsKeyError(v: Validator, s: PollState, response: Json)
    requires Validate(v, response).Ok?
    requires var homework := Validate(v, response).value;
             homework.Obj? && Truthy(homework) && "status" !in homework.fields
    ensures TryBody(v, s, Reply(200, Decoded(response))) == Threw(s.status, [], KeyError(Str("status")))
    ensures ParseStatus(Validate(v, response).value) == Err(EmptyValueError)
  {
  }

  /**
   A changed status outside the table is only logged by `parse_status`; the
   table lookup then raises KeyError on it, which is what the alert reports.
   */
  lemma UnknownStatusAlertsKeyError(v: Validator, s: PollState, response: Json, st: string)
    requires Validate(v, response).Ok?
    requires var homework := Validate(v, response).value;
             homework.Obj? && Get(homework.fields, "status") == Str(st)
    requires st !in Verdicts && Str(st) != s.status
    ensures Step(v, s, Reply(200, Decoded(response))) ==
            Running(PollState(s.status, s.timestamp, false),
                    if s.errors then [Alert(KeyError(Str(st)))] else [])
  {
  }

  /**
   An answer that is a list holding a dict homework is indexed with 0 by
   `check_response`; a changed status is announced and tracked, and the
   lookup of `current_date` in the list then fails, so the window stays put.
   */
  lemma ListAnswerNotifiesThenFails(s: PollState, items: seq<Json>)
    requires |items| > 0
    requires var homework := items[0];
             homework.Obj? && "status" in homework.fields
             && homework.fields["status"] != s.status && FormatStatus(homework.fields).Ok?
    ensures var homework := items[0];
            Step(AsWritten, s, Reply(200, Decoded(List(items)))) ==
            Running(PollState(homework.fields["status"], s.timestamp, false),
                    [Notification(homework.fields["status"], Str(FormatStatus(homework.fields).value))]
                    + (if s.errors then [Alert(TypeError)] else []))
  {
  }

  /** A homework record named `proj1` with the given status. */
  function Work(status: string): Json {
    Obj(map["homework_name" := Str("proj1"), "status" := Str(status)])
  }

  /** A 200 reply listing that one homework, stamped `date`. */
  function Poll(status: string, date: int): Fetch {
    Reply(200, Decoded(Obj(map["homeworks" := List([Work(status)]), "current_date" := Num(date)])))
  }

  /**
   Two polls of one homework, as written: the first answer already
   raises, so the chat gets the failure alert, the window stays at 1000 and the
   approval that follows is never announced.
   */
  lemma ReviewingThenApprovedAsWritten()
    ensures Step(AsWritten, PollState(Str("reviewing"), Num(1000), true), Poll("reviewing", 1600))
            == Running(PollState(Str("reviewing"), Num(1000), false), [Alert(TypeError)])
    ensures Step(AsWritten, PollState(Str("reviewing"), Num(1000), false), Poll("approved", 2200))
            == Running(PollState(Str("reviewing"), Num(1000), false), [])
  {
  }

  /**
   The same two polls with the corrected validator: no message for the
   unchanged status, then the approval, each moving the window forward.
   */
  lemma ReviewingThenApprovedIntended()
    ensures Step(FirstHomework, PollState(Str("reviewing"), Num(1000), true), Poll("reviewing", 1600))
            == Running(PollState(Str("reviewing"), Num(1600), true), [])
    ensures Step(FirstHomework, PollState(Str("reviewing"), Num(1600), true), Poll("approved", 2200))
            == Running(PollState(Str("approved"), Num(2200), true),
                       [Notification(Str("approved"),
                                     Str("Изменился статус проверки работы \"" + "proj1" + "\".\n"
                                         + "Работа проверена: ревьюеру всё понравилось. Ура!"))])
  {
    assert Validate(FirstHomework, Poll("reviewing", 1600).body.value) == Ok(Work("reviewing"));
    var approved := Poll("approved", 2200).body.value;
    assert Get(Work("approved").fields, "homework_name") == Str("proj1");
    assert Get(Work("approved").fields, "status") == Str("approved");
    assert FormatStatus(Work("approved").fields) == Ok(Notice(Str("proj1"), Verdicts["approved"]));
    FirstHomeworkNotifies(PollState(Str("reviewing"), Num(1600), true), approved);
  }

  /**
   A quiet answer that carries `current_date` completes the iteration: nothing
   is sent, the status and the alert flag are kept, and the window moves to
   that date.
   */
  lemma QuietAnswerCompletes(v: Validator, s: PollState, response: Json)
    requires response.Obj? && "current_date" in response.fields
    requires Quiet(v, s, response)
    ensures Step(v, s, Reply(200, Decoded(response))) ==
            Running(PollState(s.status, response.fields["current_date"], s.errors), [])
  {
  }

  /** An empty `homeworks` neither notifies nor raises, whichever validator runs. */
  lemma EmptyHomeworksCompletes(v: Validator, s: PollState, response: Json)
    requires response.Obj? && "homeworks" in response.fields && "current_date" in response.fields
    requires Len(response.fields["homeworks"]) == Ok(0)
    ensures Step(v, s, Reply(200, Decoded(response))) ==
            Running(PollState(s.status, response.fields["current_date"], s.errors), [])
  {
    assert Validate(v, response) == Ok(EmptyMapping);
    QuietAnswerCompletes(v, s, response);
  }

  /**
   With `check_response` as written no dict answer is ever announced: the
   only truthy homework it returns for a dict is a list, which cannot be
   indexed with `'status'`.
   */
  lemma DictAnswerNeverNotifiesAsWritten(s: PollState, response: Json)
    requires response.Obj?
    ensures !ChangeSeen(AsWritten, s, Reply(200, Decoded(response)))
    ensures NotifiedStatuses(Step(AsWritten, s, Reply(200, Decoded(response))).sent) == []
  {
    StepNotifiesWhen(AsWritten, s, Reply(200, Decoded(response)));
  }

  /**
   After an iteration that completed at a truthy `current_date`, the next
   request asks for exactly that date, whatever the clock says.
   */
  lemma NextQueryIsCurrentDate(v: Validator, s: PollState, f: Fetch, now: int)
    requires TryBody(v, s, f).Completed? && Truthy(TryBody(v, s, f).timestamp)
    ensures Step(v, s, f).Running?
    ensures FromDate(Step(v, s, f).state.timestamp, now) == f.body.value.fields["current_date"]
  {
  }
}

=== FILE: homework.dfy ===
/**
 Validation of the review service's answer and the text of a status-change
 notification: `check_response`, `parse_status` and the verdict table of
 homework.py.
 */
module Homework {
  import opened PyJson

  /** `HOMEWORK_STATUSES`: the review status codes and the verdict reported for each. */
  const Verdicts: map<string, string> := map[
    "approved" := "Работа проверена: ревьюеру всё понравилось. Ура!",
    "reviewing" := "Работа взята на проверку ревьюером.",
    "rejected" := "Работа проверена: у ревьюера есть замечания."
  ]

  /** The `{}` that `check_response` returns for an empty `homeworks`. */
  const EmptyMapping: Json := Obj(map[])

  /**
   `check_response`. A dict answer must carry a non-null `homeworks`; an empty
   one yields `{}`, a non-empty list is handed back whole, any other non-empty
   value is the wrong shape. An answer that is not a dict is indexed with 0.
   */
  function CheckResponse(response: Json): (r: Result<Json>)
    // not a dict: `response[0]`
    ensures !response.Obj? ==> (r.Ok? <==> (response.List? || response.Str?) && Truthy(response))
    ensures response.List? && r.Ok? ==> r.value == response.items[0]
    ensures response.Str? && r.Ok? ==> r.value == Str([response.s[0]])
    ensures (response.List? || response.Str?) && !Truthy(response) ==> r == Err(IndexError)
    ensures response.Null? || response.Num? || response.Bool? ==> r == Err(TypeError)
    // a dict: the key test, then the emptiness test, then the type test
    ensures r == Err(ExpectedKeysError) <==> response.Obj? && Get(response.fields, "homeworks").Null?
    ensures response.Obj? && Len(Get(response.fields, "homeworks")) == Ok(0) ==> r == Ok(EmptyMapping)
    ensures r == Err(TheAnswerListError) <==>
              response.Obj? && var h := Get(response.fields, "homeworks"); (h.Str? || h.Obj?) && Truthy(h)
    ensures response.Obj? ==>
              var h := Get(response.fields, "homeworks"); (h.Num? || h.Bool?) ==> r == Err(TypeError)
    ensures response.Obj? && r.Ok? ==>
              r.value == EmptyMapping ||
              (r.value.List? && Truthy(r.value) && r.value == response.fields["homeworks"])
    ensures response.Obj? ==>
              var h := Get(response.fields, "homeworks"); (h.List? && Truthy(h)) ==> r == Ok(h)
  {
    match response
    case Obj(fields) =>
      var answer := Get(fields, "homeworks");
      if answer.Null? then Err(ExpectedKeysError)
      else (
        match Len(answer)
        case Err(e) => Err(e)
        case Ok(n) =>
          if n == 0 then Ok(EmptyMapping)
          else if !answer.List? then Err(TheAnswerListError)
          else Ok(answer))
    case _ => Index0(response)
  }

  /**
   `check_response` as its documentation intends it: the first homework of a
   non-empty list is handed back instead of the whole list. Every other answer
   is treated exactly as `check_response` treats it.
   */
  function CheckResponseFirst(response: Json): (r: Result<Json>)
    ensures response.Obj? ==>
              var h := Get(response.fields, "homeworks"); (h.List? && Truthy(h)) ==> r == Ok(h.items[0])
    ensures !(response.Obj? && var h := Get(response.fields, "homeworks"); h.List? && Truthy(h)) ==>
              r == CheckResponse(response)
  {
    match CheckResponse(response)
    case Ok(List(items)) => if response.Obj? && |items| > 0 then Ok(items[0]) else Ok(List(items))
    case other => other
  }

  /** The fixed opening of every status-change notification. */
  const NoticeHead := "Изменился статус проверки работы \""

  /**
   The notification for a homework called `name` that received `verdict`: the
   fixed opening, the name as `str()` renders it in quotes, then the verdict on
   a line of its own.
   */
  function Notice(name: Json, verdict: string): (r: string)
    ensures |r| == |NoticeHead| + |Display(name)| + 3 + |verdict|
    ensures r[..|NoticeHead|] == NoticeHead
    ensures r[|NoticeHead|..|NoticeHead| + |Display(name)|] == Display(name)
    ensures r[|NoticeHead| + |Display(name)|..|r| - |verdict|] == "\".\n"
    ensures EndsWith(r, verdict)
  {
    NoticeHead + Display(name) + "\".\n" + verdict
  }

  /**
   The dict branch of `parse_status`. A missing or null `status` is an
   EmptyValueError. A list or dict `status` is unhashable, so the membership
   test against the table already raises a TypeError. Any other status outside
   the table is only logged there, and the table lookup that follows raises a
   KeyError. A missing `homework_name` is only logged and shows as `None` in
   the text.
   */
  function FormatStatus(fields: map<string, Json>): (r: Result<string>)
    ensures r == Err(EmptyValueError) <==> Get(fields, "status").Null?
    ensures r.Ok? <==> Get(fields, "status").Str? && Get(fields, "status").s in Verdicts
    ensures r.Ok? ==> r.value == Notice(Get(fields, "homework_name"), Verdicts[fields["status"].s])
    ensures var st := Get(fields, "status"); (st.List? || st.Obj?) ==> r == Err(TypeError)
    ensures var st := Get(fields, "status");
              (st.Num? || st.Bool? || (st.Str? && st.s !in Verdicts)) ==> r == Err(KeyError(st))
  {
    var name := Get(fields, "homework_name");
    var status := Get(fields, "status");
    if status.Null? then Err(EmptyValueError)
    else if status.List? || status.Obj? then Err(TypeError)
    else if status.Str? && status.s in Verdicts then Ok(Notice(name, Verdicts[status.s]))
    else Err(KeyError(status))
  }

  /**
   `parse_status`: the notification text for a dict homework; anything else is
   indexed with 0 and that element is returned in place of a text.
   */
  function ParseStatus(homework: Json): (r: Result<Json>)
    ensures homework.Obj? && r.Ok? ==>
              && var st := Get(homework.fields, "status");
              && st.Str? && st.s in Verdicts
              && r.value.Str?
              && VerdictOf(r.value.s) == Some(st.s)
    ensures homework.Obj? ==>
              var st := Get(homework.fields, "status");
              st.Str? && st.s in Verdicts ==>
                r == Ok(Str(Notice(Get(homework.fields, "homework_name"), Verdicts[st.s])))
    ensures homework.Obj? && FormatStatus(homework.fields).Err? ==>
              r == Err(FormatStatus(homework.fields).error)
    ensures homework.Obj? ==> (r == Err(EmptyValueError) <==> Get(homework.fields, "status").Null?)
    ensures !homework.Obj? ==> r == Index0(homework)
    ensures !homework.Obj? ==> (r.Ok? <==> (homework.List? || homework.Str?) && Truthy(homework))
    ensures homework.List? && r.Ok? ==> r.value == homework.items[0]
  {
    match homework
    case Obj(fields) =>
      (match FormatStatus(fields)
       case Err(e) => Err(e)
       case Ok(text) =>
         NoticeNamesStatus(Get(fields, "homework_name"), fields["status"].s);
         Ok(Str(text)))
    case _ => Index0(homework)
  }

  predicate EndsWith(text: string, suffix: string) {
    |suffix| <= |text| && text[|text| - |suffix|..] == suffix
  }

  /** Reads back which status a notification text reports, by its verdict suffix. */
  function VerdictOf(text: string): Option<string> {
    if EndsWith(text, Verdicts["approved"]) then Some("approved")
    else if EndsWith(text, Verdicts["reviewing"]) then Some("reviewing")
    else if EndsWith(text, Verdicts["rejected"]) then Some("rejected")
    else None
  }

  lemma EndsWithLast(text: string, suffix: string, i: nat)
    requires EndsWith(text, suffix)
    requires i < |suffix|
    ensures text[|text| - 1 - i] == suffix[|suffix| - 1 - i]
  {
    assert text[|text| - |suffix|..][|suffix| - 1 - i] == suffix[|suffix| - 1 - i];
  }

  /** Whatever the homework is called, its notification names the status it reports. */
  lemma NoticeNamesStatus(name: Json, k: string)
    requires k in Verdicts
    ensures VerdictOf(Notice(name, Verdicts[k])) == Some(k)
  {
    var v := Verdicts[k];
    var text := Notice(name, v);
    if k != "approved" {
      // every other verdict ends in '.', the approval in '!'
      EndsWithLast(text, v, 0);
      assert !EndsWith(text, Verdicts["approved"]);
    }
    if k == "rejected" {
      // "...ревьюером." against "...замечания."
      EndsWithLast(text, v, 1);
      assert !EndsWith(text, Verdicts["reviewing"]);
    }
  }

  /** Two notifications with the same text report the same status. */
  lemma NoticeDeterminesStatus(name1: Json, k1: string, name2: Json, k2: string)
    requires k1 in Verdicts && k2 in Verdicts
    requires Notice(name1, Verdicts[k1]) == Notice(name2, Verdicts[k2])
    ensures k1 == k2
  {
    NoticeNamesStatus(name1, k1);
    NoticeNamesStatus(name2, k2);
  }
}

=== FILE: py_json.dfy ===
/**
 The values the bot works on and the part of Python's semantics it relies on.

 A `Json` is what `response.json()` hands back: `None`, a bool, a number, a
 str, a list or a dict with str keys. `Error` names every exception that can
 escape one loop iteration: the four classes the bot declares for itself and
 the built-in ones raised by indexing, `len` and dict lookups. The functions
 below give Python's meaning of truthiness, `len(v)`, `d.get(k)`, `v[k]`,
 `v[0]` and `str(v)` on these values, errors included.
 */
module PyJson {

  datatype Json =
    | Null
    | Bool(b: bool)
    | Num(n: int)
    | Str(s: string)
    | List(items: seq<Json>)
    | Obj(fields: map<string, Json>)

  datatype Error =
    // the bot's own exception classes
    | ExpectedKeysError
    | EmptyValueError
    | TheAnswerStatusCodeNot200Error(code: int)
    | TheAnswerListError
    // Python built-ins
    | TypeError
    | IndexError
    | KeyError(key: Json)

  datatype Result<+T> = Ok(value: T) | Err(error: Error)

  datatype Option<+T> = None | Some(value: T)

  /** Python's `bool(v)`: empty containers, zero and None are false. */
  predicate Truthy(v: Json) {
    match v
    case Null => false
    case Bool(b) => b
    case Num(n) => n != 0
    case Str(s) => |s| > 0
    case List(items) => |items| > 0
    case Obj(fields) => |fields| > 0
  }

  /** Python's `len(v)`: defined on str, list and dict only. */
  function Len(v: Json): (r: Result<nat>)
    ensures r.Ok? <==> v.Str? || v.List? || v.Obj?
    ensures r.Err? ==> r.error == TypeError
    ensures r.Ok? ==> (r.value == 0 <==> !Truthy(v))
  {
    match v
    case Str(s) => Ok(|s|)
    case List(items) => Ok(|items|)
    case Obj(fields) => Ok(|fields|)
    case _ => Err(TypeError)
  }

  /** `d.get(key)`: the stored value, or None when the key is absent. */
  function Get(fields: map<string, Json>, key: string): (r: Json)
    ensures key in fields ==> r == fields[key]
    ensures key !in fields ==> r.Null?
  {
    if key in fields then fields[key] else Null
  }

  /** `v[key]` with a str key: a dict lookup, a TypeError on anything else. */
  function Subscript(v: Json, key: string): (r: Result<Json>)
    ensures r.Ok? <==> v.Obj? && key in v.fields
    ensures r.Ok? ==> r.value == v.fields[key]
    ensures v.Obj? && key !in v.fields ==> r == Err(KeyError(Str(key)))
    ensures !v.Obj? ==> r == Err(TypeError)
  {
    match v
    case Obj(fields) => if key in fields then Ok(fields[key]) else Err(KeyError(Str(key)))
    case _ => Err(TypeError)
  }

  /** `v[0]`: the first element of a list, the first character of a str. */
  function Index0(v: Json): (r: Result<Json>)
    ensures r.Ok? <==> (v.List? || v.Str?) && Truthy(v)
    ensures r.Ok? && v.List? ==> r.value == v.items[0]
    ensures r.Ok? && v.Str? ==> r.value == Str([v.s[0]])
    ensures (v.List? || v.Str?) && !Truthy(v) ==> r == Err(IndexError)
    ensures v.Null? || v.Num? || v.Bool? ==> r == Err(TypeError)
    ensures v.Obj? ==> r == Err(KeyError(Num(0)))
  {
    match v
    case List(items) => if |items| > 0 then Ok(items[0]) else Err(IndexError)
    case Str(s) => if |s| > 0 then Ok(Str([s[0]])) else Err(IndexError)
    // a dict's keys are strs, so the int key 0 is never present
    case Obj(_) => Err(KeyError(Num(0)))
    case _ => Err(TypeError)
  }

  /** Python's `str(v)` as an f-string renders it; containers are abbreviated. */
  function Display(v: Json): string {
    match v
    case Null => "None"
    case Bool(b) => if b then "True" else "False"
    case Num(n) => if n < 0 then "-" + Digits(-n) else Digits(n)
    case Str(s) => s
    case List(_) => "[...]"
    case Obj(_) => "{...}"
  }

  /** The number a string of decimal digits spells, most significant first. */
  function DecimalValue(digits: string): nat {
    if |digits| == 0 then 0
    else
      var d := digits[|digits| - 1] as int - '0' as int;
      DecimalValue(digits[..|digits| - 1]) * 10 + (if 0 <= d then d else 0)
  }

  /** The digits `str()` writes for a natural number spell that number back. */
  lemma {:induction false} DigitsRoundTrip(n: nat)
    ensures DecimalValue(Digits(n)) == n
    decreases n
  {
    var r := Digits(n);
    var d := [('0' as int + n % 10) as char];
    if n >= 10 {
      assert r == Digits(n / 10) + d;
      assert r[..|r| - 1] == Digits(n / 10);
      DigitsRoundTrip(n / 10);
    }
  }

  /** The decimal digits of `n`, most significant first. */
  function Digits(n: nat): (r: string)
    ensures |r| > 0
    ensures forall i :: 0 <= i < |r| ==> '0' <= r[i] <= '9'
  {
    var d := [('0' as int + n % 10) as char];
    if n < 10 then d else Digits(n / 10) + d
  }
}
